=== FILE: README.md ===
# KraftKit package-manager umbrella, project-name normalisation and kernel naming, in Dafny

This project models three pieces of KraftKit's Go code and proves properties of them.

- **The package-manager registry and the umbrella manager.** The registry maps a context key to a `PackageManager` backend. The umbrella is itself a `PackageManager`. It serves each call by ranging over every registered backend:
  - `Update`, `AddSource` and `RemoveSource` stop at the first error.
  - `Pack`, `Unpack` and `Catalog` concatenate the per-backend results, and drop them all on the first error.
  - `IsCompatible` returns the first backend's answer that is not an error.
  - `From` looks a backend up by its format.
- **`normalizeProjectName`.** It lower-cases a string, keeps only `[a-z0-9_-]`, and strips a leading run of `_`/`-`.
- **Kernel image naming of a `TargetConfig`.** `ArchPlatString`, `KernelName` and `KernelDbgName`, plus the target's plain accessors.

## How the model is built

- **Backends** (`PackManager.PackageManager`, the interface at `packmanager/manager.go:14-48`) are opaque. Each one is a format string plus one total function per contract operation, giving the result that operation returns for given arguments.
- **Errors** are Go `error` values and are modelled by their message: `Result<T> = Ok(value) | Err(msg)` and `Outcome = Pass | Fail(msg)`. The error texts are the ones the Go code formats.
- **The registry** is an immutable `map<ContextKey, PackageManager>`. Registration returns the new map together with the error.
- **Iteration order.** Go ranges over a map in an order it picks afresh on every loop. So every umbrella operation takes an explicit `order`: a duplicate-free listing of exactly the registry's keys (`IsEnumeration`). Every property is proved for all such orders.
- **Invoked trace.** Each fan-out also returns the keys of the backends it actually invoked, so fail-fast behaviour can be stated.
- **Order independence** is stated in `UmbrellaOrder`. These do not depend on the order:
  - whether an operation succeeds;
  - on success, the multiset of `Pack`/`Unpack`/`Catalog` results.
  
  These may depend on it: the arrangement of those results, which error is reported, and which backend `IsCompatible`/`From` return.
- **The umbrella as a manager** (`UmbrellaManager.AsPackageManager`) is a `PackageManager` record whose contract describes each operation through the registered backends alone, with no reference to the order.
- **Lower-casing** is ASCII lower-casing.
- **Architecture and platform** of a target are reduced to their `Name()`.

Notes on the Go code:
- `IsCompatible` returns the value the matching backend's own `IsCompatible` produced, which may be a sub-manager, and not necessarily the backend itself.
- `Update` emits no trace event; only `AddSource`, `RemoveSource`, `Pack` and `Unpack` do.
- The registration error names the format of the manager being registered, not of the one already present.

## Model

| member | source | states |
|---|---|---|
| Umbrella.RegisterPackageManager | packmanager/umbrella.go:24-32 | a present key is refused with "package manager already registered: <format of the new manager>" and the registry is returned exactly as before; otherwise the key set grows by exactly that key, it maps to the new manager, and every other entry is unchanged |
| Umbrella.RegisterTwiceKeepsFirst | packmanager/umbrella.go:24-32 | registering under a key twice fails the second time, and the key still maps to the first manager |
| Umbrella.PackageManagers | packmanager/umbrella.go:20-22 | returns the registry's current entries, each key mapped to the manager registered under it |
| Umbrella.FailFast | packmanager/umbrella.go:55-88 | an error-only fan-out succeeds iff every manager in the order succeeds, and then has invoked all of them; on failure it returns the error of the last invoked manager unchanged, every earlier one succeeded, and the invoked keys are a prefix of the order |
| Umbrella.Gather | packmanager/umbrella.go:90-134 | a list fan-out succeeds iff every manager succeeds, and then returns the concatenation of their results in order; on failure it returns exactly the first failing manager's error with no data, and invokes no later manager |
| Umbrella.From | packmanager/umbrella.go:45-53 | succeeds iff some listed manager has format `sub`; the manager returned has that format and is the first such in the order; otherwise fails with "unknown package manager: <sub>" |
| Umbrella.Update | packmanager/umbrella.go:55-64 | succeeds iff every manager's Update succeeds; on failure returns the first failing manager's error unchanged, and no manager after it is invoked |
| Umbrella.AddSource | packmanager/umbrella.go:66-76 | as Update, for each manager's AddSource of the same source |
| Umbrella.RemoveSource | packmanager/umbrella.go:78-88 | as Update, for each manager's RemoveSource of the same source |
| Umbrella.Pack | packmanager/umbrella.go:90-104 | on success, the packages of all managers concatenated in order, as many as their sum; on the first error, only that error, with everything gathered before discarded |
| Umbrella.Unpack | packmanager/umbrella.go:106-120 | as Pack, for components unpacked from one package |
| Umbrella.Catalog | packmanager/umbrella.go:122-134 | as Pack, for the packages each manager lists for the query |
| Umbrella.IsCompatible | packmanager/umbrella.go:136-147 | succeeds iff some manager accepts the source; returns what the first accepting manager in the order produced, and no later manager is asked; fails only after asking every manager, with "cannot find compatible package manager for source: <source>" |
| Umbrella.Format | packmanager/umbrella.go:149-151 | the umbrella's format is always the reserved key "umbrella" |
| UmbrellaManager.AsPackageManager | packmanager/umbrella.go:36-151 | the umbrella is itself a package manager with format "umbrella". Update, AddSource and RemoveSource succeed iff every registered manager's does, and otherwise return one registered manager's error unchanged. Pack, Unpack and Catalog likewise; on success an element is in the result iff some registered manager returned it. IsCompatible succeeds iff some registered manager accepts the source, returning what one of them produced, and otherwise fails with the "cannot find compatible package manager" error. From succeeds iff some registered manager has the format, returning a registered manager of that format, and otherwise fails with "unknown package manager: <sub>" |
| UmbrellaManager.FailFastErrorIsRegistered | packmanager/umbrella.go:55-88 | an error-only fan-out succeeds iff every registered manager does; when it fails, its error is the unchanged error of some registered manager |
| UmbrellaManager.GatherMember | packmanager/umbrella.go:90-134 | on success, an element is in a list fan-out's result iff some registered manager returned it |
| UmbrellaManager.GatherFromRegistry | packmanager/umbrella.go:90-134 | a list fan-out succeeds iff every registered manager does; on success an element is in the result iff some registered manager returned it; on failure the result is some registered manager's error, unchanged |
| UmbrellaManager.IsCompatibleFromRegistry | packmanager/umbrella.go:136-147 | IsCompatible succeeds iff some registered manager accepts the source, and then returns what one of them produced; otherwise it fails with the "cannot find compatible package manager" error |
| UmbrellaManager.FromFindsByFormat | packmanager/umbrella.go:45-53 | From succeeds iff some registered manager has the format, and then returns a registered manager of that format; otherwise it fails with "unknown package manager: <sub>" |
| UmbrellaOrder.FailFastSucceedsIffAll | packmanager/umbrella.go:55-88 | for any enumeration, an error-only fan-out succeeds iff every registered manager succeeds |
| UmbrellaOrder.UpdateOrderFree | packmanager/umbrella.go:55-64 | whether Update succeeds is the same for every enumeration of the registry |
| UmbrellaOrder.AddSourceOrderFree | packmanager/umbrella.go:66-76 | whether AddSource succeeds is the same for every enumeration |
| UmbrellaOrder.RemoveSourceOrderFree | packmanager/umbrella.go:78-88 | whether RemoveSource succeeds is the same for every enumeration |
| UmbrellaOrder.PermutedPartsSameElements | packmanager/umbrella.go:90-134 | two listings of the same keys produce the same multiset of concatenated results |
| UmbrellaOrder.GatherOrderFree | packmanager/umbrella.go:90-134 | a list fan-out succeeds iff every registered manager does, for every enumeration, and then yields the same elements with the same multiplicities |
| UmbrellaOrder.PackOrderFree | packmanager/umbrella.go:90-104 | Pack succeeds for one enumeration iff for any other, and then returns a permutation of the same packages |
| UmbrellaOrder.UnpackOrderFree | packmanager/umbrella.go:106-120 | Unpack succeeds for one enumeration iff for any other, and then returns a permutation of the same components |
| UmbrellaOrder.CatalogOrderFree | packmanager/umbrella.go:122-134 | Catalog succeeds for one enumeration iff for any other, and then returns a permutation of the same packages |
| UmbrellaOrder.IsCompatibleOrderFree | packmanager/umbrella.go:136-147 | IsCompatible succeeds iff some registered manager accepts the source, whatever the enumeration |
| UmbrellaOrder.IsCompatibleEmptyRegistry | packmanager/umbrella.go:136-147 | with no manager registered, IsCompatible always fails with the "cannot find compatible package manager" error |
| UmbrellaOrder.FromOrderFree | packmanager/umbrella.go:45-53 | From succeeds iff some registered manager has the format, whatever the enumeration, and the manager returned always has that format |
| UmbrellaExamples.PackBoth | packmanager/umbrella.go:90-104 | with an "oci" manager packing pkgA and a "tar" manager packing pkgB, Pack returns both packages, in the order the managers are visited |
| UmbrellaExamples.UpdateStopsAtFailure | packmanager/umbrella.go:55-64 | when "tar" fails to update, Update returns its error unchanged; "oci" is invoked only when visited first |
| UmbrellaExamples.IsCompatibleFirstMatch | packmanager/umbrella.go:136-147 | when both managers accept a source, the answer comes from the one visited first |
| UmbrellaExamples.FromByFormat | packmanager/umbrella.go:45-53 | From("tar") returns the tar manager, and From("zzz") fails with "unknown package manager: zzz" |
| Normalize.ToLower | unikraft/app/normalize.go:73 | keeps the length, leaves no upper-case ASCII letter, maps each upper-case letter to its lower-case form, and changes no other character |
| Normalize.KeepNameChars | unikraft/app/normalize.go:72-74 | every character kept is in [a-z0-9_-], each such character occurs exactly as often as in the input, and the result is a subsequence of the input |
| Normalize.TrimLeftSeparators | unikraft/app/normalize.go:75 | the result is a suffix of the input, everything removed is `_` or `-`, and the result does not start with either |
| Normalize.NormalizeProjectName | unikraft/app/normalize.go:71-76 | the output is the [a-z0-9_-] characters of the lower-cased input with only their leading run of `_`/`-` removed, so interior separators are kept; it does not start with `_` or `-`, is a subsequence of the lower-cased input and no longer than the input; it is empty iff no input character lower-cases to `[a-z0-9]` |
| Normalize.KeptOnlySeparators | unikraft/app/normalize.go:72-74 | the matched characters are all `_` or `-` iff no character of the input is in `[a-z0-9]` (nothing is lower-cased at this step) |
| Normalize.NormalizeFixedPoints | unikraft/app/normalize.go:71-76 | a name is left unchanged iff it consists of [a-z0-9_-] and does not start with `_` or `-` |
| Normalize.NormalizeIdempotent | unikraft/app/normalize.go:71-76 | normalising a normalised name returns it unchanged |
| Target.TargetConfig.KConfigTree | unikraft/target/target.go:140-142 | always fails with "target does not have a Config.uk file" |
| Target.TargetConfig.ArchPlatString | unikraft/target/target.go:144-146 | the platform name, then '-', then the architecture name |
| Target.KernelName | unikraft/target/target.go:155-166 | fails, with "target name not set, cannot determine binary name", iff the target name is empty; empty platform or architecture names do not fail; otherwise the target name, '_', then ArchPlatString |
| Target.KernelDbgName | unikraft/target/target.go:170-177 | fails exactly when KernelName fails, with the same error; otherwise KernelName followed by ".dbg" |
| Target.KernelNameParts | unikraft/target/target.go:155-166 | a kernel name splits back into the target name, an underscore, and the platform-architecture string |
| Target.KernelDbgNameParts | unikraft/target/target.go:170-177 | the debug name is the kernel name followed by exactly ".dbg" |
| Target.AccessorsReturnFields | unikraft/target/target.go:79-125 | Name, Architecture, Platform, Kernel, KernelDbg, Initrd, Format and Command return the stored fields unchanged |
| Target.ConstantAccessors | unikraft/target/target.go:83-129 | Source, Version and Path are always "", IsUnpacked is always false, and Type is always the unknown component type |

## Left out

- `internal/httpunix/transport.go`: a dial wrapper over the network with no logic to check.
- `normalize` and `absKraftfiles` (`unikraft/app/normalize.go:42-69`): they resolve absolute paths against the working directory, which is operating-system state.
- `TargetConfig.KConfig` (`unikraft/target/target.go:131-138`): the map override it relies on is not part of this model. For the record, it merges the target's values first, then the architecture's, then the platform's.
- `TargetConfig.PrintInfo`: returns a fixed "not implemented" string.
- Trace logging in the umbrella (`log.G(ctx).Tracef`): only the invoked keys are recorded, not the log messages.
- Concurrency on the global registry: this is left out. The random map iteration order is modelled by quantifying over every enumeration.
- Contexts, cancellation and deadlines are opaque tokens. Cancellation appears only as an error some backend returns.
- Backend state: a backend's operations are pure functions of their arguments. Within one umbrella call each registry entry is invoked at most once. A manager registered under several keys is invoked once per key, and the model gives all those calls the same outcome, where a stateful Go backend could answer differently. Effects of one call on a later one, such as `Update` refreshing a cache, are not modelled.
- Registering the umbrella inside the registry it ranges over is left out. `AsPackageManager` builds the umbrella over a fixed registry, and the Go umbrella would then call itself.
- Nil managers: in the model a `PackageManager` is never nil, and neither is a manager that a backend's `IsCompatible` or `From` returns. In Go, registering nil under a key that is already present panics (`packmanager/umbrella.go:26` calls `Format()` on the nil manager). Registering nil under a fresh key stores it, and the next umbrella call panics when it reaches that entry. A backend whose `IsCompatible` returns `(nil, nil)` makes the umbrella return `(nil, nil)` (`packmanager/umbrella.go:141-142`): a success without a manager, which `Result<PackageManager>` cannot express.
- The difference between a nil slice and an empty slice is not modelled: an error carries no data, and a success with no elements is the empty sequence.
- The regular-expression engine is replaced by a character-class predicate. Each match of `[a-z0-9_-]` is a single character.
- Umbrella.PackageManagers: Go returns the live global map. A caller holding it sees later registrations, and can write to it directly, bypassing the duplicate-key check. The model returns the registry as it is at the call; neither effect is modelled.
- UmbrellaManager.AsPackageManager: one record fixes a single `order` for all its calls, whereas Go picks a new range order on every umbrella call (`packmanager/umbrella.go:46`, 56, 67, 79, 93, 109, 124, 139). Its contract is stated without reference to the order, so it holds whichever order each Go call uses. Which error is reported, and the arrangement of list results, are not promised. For list results the record's contract gives membership; the multiplicities are given by `UmbrellaOrder.PackOrderFree`, `UnpackOrderFree` and `CatalogOrderFree`.
- Umbrella.Update: an error is compared by its message text, so "returned unchanged" means the same message; the identity of a wrapped Go error value is not modelled. The same holds for AddSource, RemoveSource, Pack, Unpack, Catalog and IsCompatible.
- Normalize.NormalizeProjectName: lower-casing covers ASCII letters only. Go's `strings.ToLower` also maps some non-ASCII characters (the Kelvin sign, the dotted capital I) onto `a`-`z`; this model drops them instead. So the contract matches the Go code for ASCII input only.
- Normalize.ToLower: maps ASCII letters only, for the reason above.
- Target.TargetConfig.ArchPlatString: the architecture and platform are reduced to their names. Their other configuration is not modelled.

=== FILE: manager.dfy ===
/** The `PackageManager` contract every package-format backend implements.

    A concrete backend is opaque here: it is described by its format string
    and, for each operation of the contract, the outcome that operation
    yields for given arguments. The umbrella forwards those outcomes.
 */
module PackManager {
  import opened Results

  /** A `context.Context`. The umbrella only passes it through; cancellation
      shows up only as an error some backend returns. */
  datatype Context = Context(id: nat)

  /** A buildable unit (`component.Component`); only its name is observed. */
  datatype Component = Component(name: string)

  /** A distributable artifact (`pack.Package`); only its name is observed. */
  datatype Package = Package(name: string)

  /** Opaque filter passed unchanged to every backend's `Catalog`. */
  datatype CatalogQuery = CatalogQuery(id: nat)

  /** Opaque options passed unchanged to every backend's `Pack` / `Unpack`. */
  datatype PackOption = PackOption(id: nat)
  datatype UnpackOption = UnpackOption(id: nat)

  /** One backend: its `Format()` and the result of each contract operation. */
  datatype PackageManager = PackageManager(
    format: string,
    update: Context -> Outcome,
    pack: (Context, Component, seq<PackOption>) -> Result<seq<Package>>,
    unpack: (Context, Package, seq<UnpackOption>) -> Result<seq<Component>>,
    catalog: (Context, CatalogQuery) -> Result<seq<Package>>,
    addSource: (Context, string) -> Outcome,
    removeSource: (Context, string) -> Outcome,
    isCompatible: (Context, string) -> Result<PackageManager>,
    from: string -> Result<PackageManager>
  )
}

=== FILE: normalize.dfy ===
/** `normalizeProjectName`: turning an arbitrary string into a project name.

    The name is lower-cased, every character outside `[a-z0-9_-]` is dropped,
    and then any leading run of `_` and `-` is removed. Lower-casing is
    modelled for ASCII letters only: Go's `strings.ToLower` also maps some
    non-ASCII characters (the Kelvin sign, for one) onto `a`-`z`, which this
    model instead drops as characters outside the class.
 */
module Normalize {

  predicate IsUpperAscii(c: char) {
    'A' <= c <= 'Z'
  }

  /** A character the pattern `[a-z0-9_-]` matches. */
  predicate IsNameChar(c: char) {
    'a' <= c <= 'z' || '0' <= c <= '9' || c == '_' || c == '-'
  }

  /** A character the cut set `"_-"` of the final trim contains. */
  predicate IsSeparator(c: char) {
    c == '_' || c == '-'
  }

  /** The form every normalised name has. */
  predicate IsNormalized(s: string) {
    && (forall i :: 0 <= i < |s| ==> IsNameChar(s[i]))
    && (s == [] || !IsSeparator(s[0]))
  }

  /** `a` can be obtained from `b` by deleting characters. */
  predicate IsSubsequence(a: string, b: string)
    decreases |b|
  {
    if a == [] then true
    else if b == [] then false
    else if a[0] == b[0] then IsSubsequence(a[1..], b[1..])
    else IsSubsequence(a, b[1..])
  }

  function ToLowerAscii(c: char): char {
    if IsUpperAscii(c) then (c as int - 'A' as int + 'a' as int) as char else c
  }

  /** `strings.ToLower`, on ASCII letters. */
  function ToLower(s: string): (r: string)
    ensures |r| == |s|
    ensures forall i :: 0 <= i < |s| ==> !IsUpperAscii(r[i])
    ensures forall i :: 0 <= i < |s| && !IsUpperAscii(s[i]) ==> r[i] == s[i]
    ensures forall i :: 0 <= i < |s| && IsUpperAscii(s[i]) ==> r[i] as int == s[i] as int + 32
  {
    seq(|s|, i requires 0 <= i < |s| => ToLowerAscii(s[i]))
  }

  /** Joining every match of `[a-z0-9_-]` in `s`: each match is a single
      character, so this keeps exactly the name characters, in order. */
  function KeepNameChars(s: string): (r: string)
    ensures forall i :: 0 <= i < |r| ==> IsNameChar(r[i])
    ensures forall c :: IsNameChar(c) ==> multiset(r)[c] == multiset(s)[c]
    ensures IsSubsequence(r, s)
    decreases |s|
  {
    if s == [] then []
    else
      assert s == [s[0]] + s[1..];
      if IsNameChar(s[0]) then [s[0]] + KeepNameChars(s[1..])
      else
        var rest := KeepNameChars(s[1..]);
        SubsequenceOfTail(rest, s);
        rest
  }

  /** `strings.TrimLeft(s, "_-")`: removes the leading run of separators and
      nothing else. */
  function TrimLeftSeparators(s: string): (r: string)
    ensures |r| <= |s| && r == s[|s| - |r|..]
    ensures forall i :: 0 <= i < |s| - |r| ==> IsSeparator(s[i])
    ensures r == [] || !IsSeparator(r[0])
    decreases |s|
  {
    if s != [] && IsSeparator(s[0]) then TrimLeftSeparators(s[1..]) else s
  }

  /** `normalizeProjectName`: the characters of the lower-cased input that
      match `[a-z0-9_-]`, less their leading run of separators only, so
      every separator after the first character in `[a-z0-9]` is kept. The
      result is empty iff no input character lower-cases to `[a-z0-9]`. */
  function NormalizeProjectName(s: string): (r: string)
    ensures forall i :: 0 <= i < |r| ==> IsNameChar(r[i])
    ensures r == [] || !IsSeparator(r[0])
    ensures IsSubsequence(r, ToLower(s))
    ensures |r| <= |s|
    ensures var kept := KeepNameChars(ToLower(s));
            && |r| <= |kept| && r == kept[|kept| - |r|..]
            && forall i :: 0 <= i < |kept| - |r| ==> IsSeparator(kept[i])
    ensures r == [] <==>
              forall i :: 0 <= i < |s| ==> !IsNameChar(ToLowerAscii(s[i])) || IsSeparator(ToLowerAscii(s[i]))
  {
    var lower := ToLower(s);
    var kept := KeepNameChars(lower);
    var r := TrimLeftSeparators(kept);
    SubsequenceSuffix(kept, lower, |kept| - |r|);
    SubsequenceLength(r, lower);
    KeptOnlySeparators(lower);
    TrimmedEmptyIff(kept);
    LowerNoLowerAsciiOrDigit(s);
    r
  }

  // ---------------------------------------------------------------------
  // Subsequences

  lemma {:induction false} SubsequenceLength(a: string, b: string)
    requires IsSubsequence(a, b)
    ensures |a| <= |b|
    decreases |b|
  {
    if a != [] {
      if a[0] == b[0] {
        SubsequenceLength(a[1..], b[1..]);
      } else {
        SubsequenceLength(a, b[1..]);
      }
    }
  }

  /** Dropping the first character of a subsequence keeps it a subsequence. */
  lemma {:induction false} SubsequenceDropHead(a: string, b: string)
    requires a != [] && IsSubsequence(a, b)
    ensures IsSubsequence(a[1..], b)
    decreases |b|, 1
  {
    if a[0] == b[0] {
      SubsequenceOfTail(a[1..], b);
    } else {
      SubsequenceDropHead(a, b[1..]);
      SubsequenceOfTail(a[1..], b);
    }
  }

  /** A subsequence of `b[1..]` is a subsequence of `b`. */
  lemma {:induction false} SubsequenceOfTail(a: string, b: string)
    requires b != [] && IsSubsequence(a, b[1..])
    ensures IsSubsequence(a, b)
    decreases |b|, 0
  {
    if a != [] && a[0] == b[0] {
      SubsequenceDropHead(a, b[1..]);
    }
  }

  /** Every suffix of a subsequence is a subsequence. */
  lemma {:induction false} SubsequenceSuffix(a: string, b: string, n: nat)
    requires IsSubsequence(a, b) && n <= |a|
    ensures IsSubsequence(a[n..], b)
    decreases n
  {
    if n > 0 {
      SubsequenceSuffix(a, b, n - 1);
      assert a[n - 1..][1..] == a[n..];
      SubsequenceDropHead(a[n - 1..], b);
    }
  }

  predicate AllSeparators(s: string) {
    forall i :: 0 <= i < |s| ==> IsSeparator(s[i])
  }

  /** No character of `s` is in `[a-z0-9]`. Nothing is lower-cased here, and
      other letters (upper-case, non-ASCII) are not excluded. */
  predicate NoLowerAsciiOrDigit(s: string) {
    forall i :: 0 <= i < |s| ==> !IsNameChar(s[i]) || IsSeparator(s[i])
  }

  /** The name characters of `s` are all separators iff no character of `s`
      is in `[a-z0-9]`: `KeepNameChars` keeps every name character as often
      as it occurs. */
  lemma KeptOnlySeparators(s: string)
    ensures AllSeparators(KeepNameChars(s)) <==> NoLowerAsciiOrDigit(s)
  {
  }

  /** Trimming leaves nothing iff there was nothing but separators. */
  lemma TrimmedEmptyIff(s: string)
    ensures TrimLeftSeparators(s) == [] <==> AllSeparators(s)
  {
  }

  /** `NoLowerAsciiOrDigit` of the lower-cased string: no input character
      lower-cases to `[a-z0-9]`. */
  lemma LowerNoLowerAsciiOrDigit(s: string)
    ensures NoLowerAsciiOrDigit(ToLower(s)) <==>
              forall i :: 0 <= i < |s| ==> !IsNameChar(ToLowerAscii(s[i])) || IsSeparator(ToLowerAscii(s[i]))
  {
  }

  // ---------------------------------------------------------------------
  // Properties of normalisation

  /** A string made only of name characters is kept whole. */
  lemma {:induction false} KeepNameCharsFixes(s: string)
    requires forall i :: 0 <= i < |s| ==> IsNameChar(s[i])
    ensures KeepNameChars(s) == s
    decreases |s|
  {
    if s != [] {
      KeepNameCharsFixes(s[1..]);
    }
  }

  /** Exactly the normalised names are left unchanged by normalisation. */
  lemma NormalizeFixedPoints(s: string)
    ensures NormalizeProjectName(s) == s <==> IsNormalized(s)
  {
    if IsNormalized(s) {
      assert ToLower(s) == s;
      KeepNameCharsFixes(s);
    }
  }

  /** Normalising twice is normalising once. */
  lemma NormalizeIdempotent(s: string)
    ensures NormalizeProjectName(NormalizeProjectName(s)) == NormalizeProjectName(s)
  {
    NormalizeFixedPoints(NormalizeProjectName(s));
  }
}

=== FILE: results.dfy ===
/** Go-style error returns and the sequence helpers the fan-outs are specified with.

    A Go `error` is either nil or carries a message; the umbrella compares and
    forwards errors only as whole values, so an error is modelled by its
    message text.
 */
module Results {

  /** `(T, error)`: a value when the error is nil, otherwise only the error. */
  datatype Result<+T> = Ok(value: T) | Err(msg: string) {

    /** The value, or `default` when this is an error. */
    function GetOr(default: T): T {
      match this
      case Ok(v) => v
      case Err(_) => default
    }
  }

  /** A bare `error` return: nil (`Pass`) or an error message. */
  datatype Outcome = Pass | Fail(msg: string)

  /** A Go `*T` value, which may be nil. */
  datatype Option<+T> = None | Some(value: T)

  /** Reference definition of appending every block of `parts`, left to right. */
  function Flatten<T>(parts: seq<seq<T>>): seq<T>
    decreases |parts|
  {
    if parts == [] then [] else parts[0] + Flatten(parts[1..])
  }

  /** Total number of elements over all blocks of `parts`. */
  function SumLengths<T>(parts: seq<seq<T>>): nat
    decreases |parts|
  {
    if parts == [] then 0 else |parts[0]| + SumLengths(parts[1..])
  }

  /** Flattening neither drops nor duplicates elements: its length is the sum
      of the block lengths. */
  lemma {:induction false} FlattenLength<T>(parts: seq<seq<T>>)
    ensures |Flatten(parts)| == SumLengths(parts)
    decreases |parts|
  {
    if parts != [] {
      FlattenLength(parts[1..]);
    }
  }

  /** Flattening distributes over concatenation of block sequences. */
  lemma {:induction false} FlattenAppend<T>(a: seq<seq<T>>, b: seq<seq<T>>)
    ensures Flatten(a + b) == Flatten(a) + Flatten(b)
    decreases |a|
  {
    if a == [] {
      assert a + b == b;
    } else {
      assert (a + b)[1..] == a[1..] + b;
      FlattenAppend(a[1..], b);
    }
  }

  /** An element is in the flattening iff it is in one of the blocks. */
  lemma {:induction false} FlattenMember<T>(parts: seq<seq<T>>, x: T)
    ensures x in Flatten(parts) <==> exists i :: 0 <= i < |parts| && x in parts[i]
    decreases |parts|
  {
    if parts != [] {
      FlattenMember(parts[1..], x);
      assert forall i :: 1 <= i < |parts| ==> parts[i] == parts[1..][i - 1];
    }
  }
}

=== FILE: target.dfy ===
/** A build target (`TargetConfig`) and the kernel image names derived from it.

    The architecture and platform of a target are reduced to the one thing
    the naming uses: their `Name()`.
 */
module Target {
  import opened Results

  datatype ArchitectureConfig = ArchitectureConfig(name: string)

  datatype PlatformConfig = PlatformConfig(name: string)

  /** The initramfs configuration of a target, opaque here. */
  datatype InitrdConfig = InitrdConfig(id: nat)

  /** A parsed `Config.uk` file, opaque here. */
  datatype KConfigFile = KConfigFile(id: nat)

  /** One `KEY=value` pair of the build configuration. */
  datatype KeyValue = KeyValue(key: string, value: string)

  /** The kind of a component. A target reports itself as of unknown kind.
      The other kinds the `unikraft` package defines are not part of this
      model; `ComponentTypeOther` stands for any of them, by name. */
  datatype ComponentType = ComponentTypeUnknown | ComponentTypeOther(name: string)

  const MissingTargetName: string := "target name not set, cannot determine binary name"
  const NoConfigUk: string := "target does not have a Config.uk file"

  datatype TargetConfig = TargetConfig(
    name: string,
    architecture: ArchitectureConfig,
    platform: PlatformConfig,
    format: string,
    kernel: string,
    kernelDbg: string,
    initrd: Option<InitrdConfig>,
    command: seq<string>
  ) {

    function Name(): string { name }

    function Source(): string { "" }

    function Version(): string { "" }

    function Architecture(): ArchitectureConfig { architecture }

    function Platform(): PlatformConfig { platform }

    function Kernel(): string { kernel }

    function KernelDbg(): string { kernelDbg }

    function Initrd(): Option<InitrdConfig> { initrd }

    function Format(): string { format }

    function Type(): ComponentType { ComponentTypeUnknown }

    function Path(): string { "" }

    function Command(): seq<string> { command }

    function IsUnpacked(): bool { false }

    /** A target has no `Config.uk` of its own: always an error. */
    function KConfigTree(env: seq<KeyValue>): (r: Result<KConfigFile>)
      ensures r.Err? && r.msg == NoConfigUk
    {
      Err(NoConfigUk)
    }

    /** The canonical `<platform>-<architecture>` string. */
    function ArchPlatString(): (r: string)
      ensures |r| == |platform.name| + 1 + |architecture.name|
      ensures r[..|platform.name|] == platform.name
      ensures r[|platform.name|] == '-'
      ensures r[|platform.name| + 1..] == architecture.name
    {
      platform.name + "-" + architecture.name
    }
  }

  /** The kernel image name Unikraft's build system produces for `target`:
      `<name>_<platform>-<architecture>`. Only a missing target name is an
      error; empty platform or architecture names are not. */
  function KernelName(target: TargetConfig): (r: Result<string>)
    ensures r.Err? <==> target.Name() == ""
    ensures r.Err? ==> r.msg == MissingTargetName
    ensures r.Ok? ==> r.value == target.Name() + "_" + target.ArchPlatString()
  {
    if target.Name() == "" then Err(MissingTargetName)
    else Ok(target.Name() + "_" + target.platform.name + "-" + target.architecture.name)
  }

  /** The unstripped kernel image name: the kernel name with `.dbg` appended,
      failing exactly when the kernel name does, with the same error. */
  function KernelDbgName(target: TargetConfig): (r: Result<string>)
    ensures r.Err? <==> KernelName(target).Err?
    ensures r.Err? ==> r == KernelName(target)
    ensures r.Ok? ==> r.value == KernelName(target).value + ".dbg"
  {
    var name := KernelName(target);
    if name.Err? then Err(name.msg) else Ok(name.value + ".dbg")
  }

  /** A kernel name can be split back into the target name and the
      platform-architecture string: the first `|name|` characters are the
      target name and the underscore after them starts the rest. */
  lemma KernelNameParts(target: TargetConfig)
    requires target.Name() != ""
    ensures var k := KernelName(target).value;
            && |k| == |target.Name()| + 1 + |target.ArchPlatString()|
            && k[..|target.Name()|] == target.Name()
            && k[|target.Name()|] == '_'
            && k[|target.Name()| + 1..] == target.ArchPlatString()
  {
  }

  /** The debug image name ends in `.dbg` after the kernel name. */
  lemma KernelDbgNameParts(target: TargetConfig)
    requires target.Name() != ""
    ensures var d := KernelDbgName(target).value;
            && |d| == |KernelName(target).value| + 4
            && d[..|KernelName(target).value|] == KernelName(target).value
            && d[|KernelName(target).value|..] == ".dbg"
  {
  }

  /** `Name`, `Kernel`, `KernelDbg`, `Format`, `Command`, `Initrd`,
      `Architecture` and `Platform` return the stored fields unchanged. */
  lemma AccessorsReturnFields(tc: TargetConfig)
    ensures tc.Name() == tc.name && tc.Kernel() == tc.kernel && tc.KernelDbg() == tc.kernelDbg
    ensures tc.Format() == tc.format && tc.Command() == tc.command && tc.Initrd() == tc.initrd
    ensures tc.Architecture() == tc.architecture && tc.Platform() == tc.platform
  {
  }

  /** `Source`, `Version` and `Path` are empty, a target is never unpacked,
      and its type is unknown, whatever the target holds. */
  lemma ConstantAccessors(tc: TargetConfig)
    ensures tc.Source() == "" && tc.Version() == "" && tc.Path() == ""
    ensures !tc.IsUnpacked()
    ensures tc.Type() == ComponentTypeUnknown
  {
  }
}

=== FILE: umbrella.dfy ===
/** The package-manager registry and the umbrella that multiplexes over it.

    The registry is the `packageManagers` map, as an immutable value: every
    operation that changes it returns the new map. Go ranges over a map in an
    order it picks afresh each time, so every umbrella operation takes the
    order it visits the managers in as an explicit `order`: a listing of the
    registry's keys without repetition (`IsEnumeration`). Each operation is a
    recursive fan-out over `order` and reports, besides its result, the keys
    of the managers it actually invoked.
 */
module Umbrella {
  import opened Results
  import opened PackManager

  /** A `pack.ContextKey`: the key a package manager is registered under. */
  type ContextKey = string

  /** The registry of package managers. */
  type Registry = map<ContextKey, PackageManager>

  /** The key reserved for the umbrella, which is also its format. */
  const UmbrellaContext: ContextKey := "umbrella"

  function AlreadyRegistered(format: string): string {
    "package manager already registered: " + format
  }

  function UnknownPackageManager(sub: string): string {
    "unknown package manager: " + sub
  }

  function NoCompatibleManager(source: string): string {
    "cannot find compatible package manager for source: " + source
  }

  // ---------------------------------------------------------------------
  // Registry

  /** The registry after a registration attempt, and the error it returned. */
  datatype Registration = Registration(registry: Registry, err: Outcome)

  /** Registers `manager` under `key`. A key already present is refused with
      an error naming the new manager's format, and the registry is left
      exactly as it was; otherwise exactly the one new entry is added. */
  function RegisterPackageManager(reg: Registry, key: ContextKey, manager: PackageManager): (r: Registration)
    ensures r.err.Fail? <==> key in reg
    ensures key in reg ==> r.err.msg == AlreadyRegistered(manager.format) && r.registry == reg
    ensures key !in reg ==> r.registry.Keys == reg.Keys + {key} && r.registry[key] == manager
    ensures forall k :: k in reg ==> k in r.registry && r.registry[k] == reg[k]
  {
    if key in reg then Registration(reg, Fail(AlreadyRegistered(manager.format)))
    else Registration(reg[key := manager], Pass)
  }

  /** `PackageManagers()`: the registry's current entries. */
  function PackageManagers(reg: Registry): (r: Registry)
    ensures r == reg
  {
    reg
  }

  /** Registering a second manager under a key keeps the first one. */
  lemma RegisterTwiceKeepsFirst(reg: Registry, key: ContextKey, first: PackageManager, second: PackageManager)
    requires key !in reg
    ensures var once := RegisterPackageManager(reg, key, first);
            var twice := RegisterPackageManager(once.registry, key, second);
            && once.err == Pass
            && twice.err == Fail(AlreadyRegistered(second.format))
            && PackageManagers(twice.registry)[key] == first
  {
  }

  // ---------------------------------------------------------------------
  // Enumerations of the registry

  /** Every key listed in `order` is registered. */
  ghost predicate Listed(reg: Registry, order: seq<ContextKey>) {
    forall i :: 0 <= i < |order| ==> order[i] in reg
  }

  ghost predicate NoDuplicates(order: seq<ContextKey>) {
    forall i, j :: 0 <= i < j < |order| ==> order[i] != order[j]
  }

  /** `order` is one of the orders in which Go may range over `reg`. */
  ghost predicate IsEnumeration(reg: Registry, order: seq<ContextKey>) {
    && NoDuplicates(order)
    && Listed(reg, order)
    && forall k :: k in reg ==> k in order
  }

  // ---------------------------------------------------------------------
  // Generic fan-outs

  /** The outcome of an error-only fan-out and the managers it invoked. */
  datatype FanOut = FanOut(err: Outcome, invoked: seq<ContextKey>)

  /** Calls `call` on each manager in `order`, stopping at the first error,
      which is returned unchanged. */
  function FailFast(reg: Registry, order: seq<ContextKey>, call: PackageManager -> Outcome): (r: FanOut)
    requires Listed(reg, order)
    ensures r.invoked <= order
    ensures r.err.Pass? <==> forall i :: 0 <= i < |order| ==> call(reg[order[i]]).Pass?
    ensures r.err.Pass? ==> r.invoked == order
    ensures r.err.Fail? ==>
              && 0 < |r.invoked|
              && r.err == call(reg[order[|r.invoked| - 1]])
              && forall i :: 0 <= i < |r.invoked| - 1 ==> call(reg[order[i]]).Pass?
    decreases |order|
  {
    if order == [] then FanOut(Pass, [])
    else
      var head := call(reg[order[0]]);
      if head.Fail? then FanOut(head, [order[0]])
      else
        var rest := FailFast(reg, order[1..], call);
        FanOut(rest.err, [order[0]] + rest.invoked)
  }

  /** What each manager in `order` returned, an error counting as no elements. */
  function Parts<T>(reg: Registry, order: seq<ContextKey>, call: PackageManager -> Result<seq<T>>): (p: seq<seq<T>>)
    requires Listed(reg, order)
    ensures |p| == |order|
    ensures forall i :: 0 <= i < |order| ==> p[i] == call(reg[order[i]]).GetOr([])
    decreases |order|
  {
    if order == [] then [] else [call(reg[order[0]]).GetOr([])] + Parts(reg, order[1..], call)
  }

  /** The outcome of a list-returning fan-out and the managers it invoked. */
  datatype Gathered<T> = Gathered(result: Result<seq<T>>, invoked: seq<ContextKey>)

  /** Calls `call` on each manager in `order`, appending the results; the
      first error discards everything gathered so far and is returned
      unchanged. */
  function Gather<T>(reg: Registry, order: seq<ContextKey>, call: PackageManager -> Result<seq<T>>): (r: Gathered<T>)
    requires Listed(reg, order)
    ensures r.invoked <= order
    ensures r.result.Ok? <==> forall i :: 0 <= i < |order| ==> call(reg[order[i]]).Ok?
    ensures r.result.Ok? ==> r.invoked == order && r.result.value == Flatten(Parts(reg, order, call))
    ensures r.result.Err? ==>
              && 0 < |r.invoked|
              && r.result == call(reg[order[|r.invoked| - 1]])
              && forall i :: 0 <= i < |r.invoked| - 1 ==> call(reg[order[i]]).Ok?
    decreases |order|
  {
    if order == [] then Gathered(Ok([]), [])
    else
      var head := call(reg[order[0]]);
      if head.Err? then Gathered(head, [order[0]])
      else
        var rest := Gather(reg, order[1..], call);
        assert Parts(reg, order, call) == [head.value] + Parts(reg, order[1..], call);
        assert forall i :: 1 <= i < |order| ==> order[i] == order[1..][i - 1];
        if rest.result.Err? then
          assert order[|rest.invoked|] == order[1..][|rest.invoked| - 1];
          Gathered(rest.result, [order[0]] + rest.invoked)
        else Gathered(Ok(head.value + rest.result.value), [order[0]] + rest.invoked)
  }

  // ---------------------------------------------------------------------
  // The per-operation calls the umbrella makes on each manager

  function UpdateCall(ctx: Context): PackageManager -> Outcome {
    (m: PackageManager) => m.update(ctx)
  }

  function AddSourceCall(ctx: Context, source: string): PackageManager -> Outcome {
    (m: PackageManager) => m.addSource(ctx, source)
  }

  function RemoveSourceCall(ctx: Context, source: string): PackageManager -> Outcome {
    (m: PackageManager) => m.removeSource(ctx, source)
  }

  function PackCall(ctx: Context, entity: Component, opts: seq<PackOption>): PackageManager -> Result<seq<Package>> {
    (m: PackageManager) => m.pack(ctx, entity, opts)
  }

  function UnpackCall(ctx: Context, entity: Package, opts: seq<UnpackOption>): PackageManager -> Result<seq<Component>> {
    (m: PackageManager) => m.unpack(ctx, entity, opts)
  }

  function CatalogCall(ctx: Context, query: CatalogQuery): PackageManager -> Result<seq<Package>> {
    (m: PackageManager) => m.catalog(ctx, query)
  }

  // ---------------------------------------------------------------------
  // The umbrella's operations

  /** `Format()` of the umbrella: the reserved umbrella key. */
  function Format(): (r: string)
    ensures r == UmbrellaContext && r == "umbrella"
  {
    UmbrellaContext
  }

  /** `From(sub)`: the first manager in `order` whose format is `sub`. */
  function From(reg: Registry, order: seq<ContextKey>, sub: string): (r: Result<PackageManager>)
    requires Listed(reg, order)
    ensures r.Ok? <==> exists i :: 0 <= i < |order| && reg[order[i]].format == sub
    ensures r.Ok? ==>
              && r.value.format == sub
              && exists n :: 0 <= n < |order| && r.value == reg[order[n]]
                             && forall i :: 0 <= i < n ==> reg[order[i]].format != sub
    ensures r.Err? ==> r.msg == UnknownPackageManager(sub)
    decreases |order|
  {
    if order == [] then Err(UnknownPackageManager(sub))
    else if reg[order[0]].format == sub then Ok(reg[order[0]])
    else
      var rest := From(reg, order[1..], sub);
      assert forall i :: 1 <= i < |order| ==> order[i] == order[1..][i - 1];
      assert rest.Ok? ==> exists n :: 0 <= n < |order| && rest.value == reg[order[n]]
                                        && forall i :: 0 <= i < n ==> reg[order[i]].format != sub by {
        if rest.Ok? {
          var n :| 0 <= n < |order[1..]| && rest.value == reg[order[1..][n]]
                   && forall i :: 0 <= i < n ==> reg[order[1..][i]].format != sub;
          assert rest.value == reg[order[n + 1]];
        }
      }
      rest
  }

  /** `Update`: every manager refreshes its cache, stopping at the first error. */
  function Update(reg: Registry, order: seq<ContextKey>, ctx: Context): (r: FanOut)
    requires IsEnumeration(reg, order)
    ensures r.invoked <= order
    ensures r.err.Pass? <==> forall i :: 0 <= i < |order| ==> reg[order[i]].update(ctx).Pass?
    ensures r.err.Pass? ==> r.invoked == order
    ensures r.err.Fail? ==>
              && 0 < |r.invoked|
              && r.err == reg[order[|r.invoked| - 1]].update(ctx)
              && forall i :: 0 <= i < |r.invoked| - 1 ==> reg[order[i]].update(ctx).Pass?
  {
    FailFast(reg, order, UpdateCall(ctx))
  }

  /** `AddSource`: every manager adds `source`, stopping at the first error. */
  function AddSource(reg: Registry, order: seq<ContextKey>, ctx: Context, source: string): (r: FanOut)
    requires IsEnumeration(reg, order)
    ensures r.invoked <= order
    ensures r.err.Pass? <==> forall i :: 0 <= i < |order| ==> reg[order[i]].addSource(ctx, source).Pass?
    ensures r.err.Pass? ==> r.invoked == order
    ensures r.err.Fail? ==>
              && 0 < |r.invoked|
              && r.err == reg[order[|r.invoked| - 1]].addSource(ctx, source)
              && forall i :: 0 <= i < |r.invoked| - 1 ==> reg[order[i]].addSource(ctx, source).Pass?
  {
    FailFast(reg, order, AddSourceCall(ctx, source))
  }

  /** `RemoveSource`: every manager removes `source`, stopping at the first error. */
  function RemoveSource(reg: Registry, order: seq<ContextKey>, ctx: Context, source: string): (r: FanOut)
    requires IsEnumeration(reg, order)
    ensures r.invoked <= order
    ensures r.err.Pass? <==> forall i :: 0 <= i < |order| ==> reg[order[i]].removeSource(ctx, source).Pass?
    ensures r.err.Pass? ==> r.invoked == order
    ensures r.err.Fail? ==>
              && 0 < |r.invoked|
              && r.err == reg[order[|r.invoked| - 1]].removeSource(ctx, source)
              && forall i :: 0 <= i < |r.invoked| - 1 ==> reg[order[i]].removeSource(ctx, source).Pass?
  {
    FailFast(reg, order, RemoveSourceCall(ctx, source))
  }

  /** `Pack`: the packages of every manager, concatenated in `order`; no
      packages at all when some manager fails. */
  function Pack(reg: Registry, order: seq<ContextKey>, ctx: Context, entity: Component, opts: seq<PackOption>): (r: Gathered<Package>)
    requires IsEnumeration(reg, order)
    ensures r.invoked <= order
    ensures r.result.Ok? <==> forall i :: 0 <= i < |order| ==> reg[order[i]].pack(ctx, entity, opts).Ok?
    ensures r.result.Ok? ==>
              && r.invoked == order
              && r.result.value == Flatten(Parts(reg, order, PackCall(ctx, entity, opts)))
              && |r.result.value| == SumLengths(Parts(reg, order, PackCall(ctx, entity, opts)))
    ensures r.result.Err? ==>
              && 0 < |r.invoked|
              && r.result == reg[order[|r.invoked| - 1]].pack(ctx, entity, opts)
              && forall i :: 0 <= i < |r.invoked| - 1 ==> reg[order[i]].pack(ctx, entity, opts).Ok?
  {
    FlattenLength(Parts(reg, order, PackCall(ctx, entity, opts)));
    Gather(reg, order, PackCall(ctx, entity, opts))
  }

  /** `Unpack`: the components of every manager, concatenated in `order`; no
      components at all when some manager fails. */
  function Unpack(reg: Registry, order: seq<ContextKey>, ctx: Context, entity: Package, opts: seq<UnpackOption>): (r: Gathered<Component>)
    requires IsEnumeration(reg, order)
    ensures r.invoked <= order
    ensures r.result.Ok? <==> forall i :: 0 <= i < |order| ==> reg[order[i]].unpack(ctx, entity, opts).Ok?
    ensures r.result.Ok? ==>
              && r.invoked == order
              && r.result.value == Flatten(Parts(reg, order, UnpackCall(ctx, entity, opts)))
              && |r.result.value| == SumLengths(Parts(reg, order, UnpackCall(ctx, entity, opts)))
    ensures r.result.Err? ==>
              && 0 < |r.invoked|
              && r.result == reg[order[|r.invoked| - 1]].unpack(ctx, entity, opts)
              && forall i :: 0 <= i < |r.invoked| - 1 ==> reg[order[i]].unpack(ctx, entity, opts).Ok?
  {
    FlattenLength(Parts(reg, order, UnpackCall(ctx, entity, opts)));
    Gather(reg, order, UnpackCall(ctx, entity, opts))
  }

  /** `Catalog`: the packages every manager lists for `query`, concatenated
      in `order`; no packages at all when some manager fails. */
  function Catalog(reg: Registry, order: seq<ContextKey>, ctx: Context, query: CatalogQuery): (r: Gathered<Package>)
    requires IsEnumeration(reg, order)
    ensures r.invoked <= order
    ensures r.result.Ok? <==> forall i :: 0 <= i < |order| ==> reg[order[i]].catalog(ctx, query).Ok?
    ensures r.result.Ok? ==>
              && r.invoked == order
              && r.result.value == Flatten(Parts(reg, order, CatalogCall(ctx, query)))
              && |r.result.value| == SumLengths(Parts(reg, order, CatalogCall(ctx, query)))
    ensures r.result.Err? ==>
              && 0 < |r.invoked|
              && r.result == reg[order[|r.invoked| - 1]].catalog(ctx, query)
              && forall i :: 0 <= i < |r.invoked| - 1 ==> reg[order[i]].catalog(ctx, query).Ok?
  {
    FlattenLength(Parts(reg, order, CatalogCall(ctx, query)));
    Gather(reg, order, CatalogCall(ctx, query))
  }

  /** The outcome of the compatibility probe and the managers it asked. */
  datatype Probe = Probe(result: Result<PackageManager>, invoked: seq<ContextKey>)

  /** `IsCompatible`: what the first manager in `order` that accepts `source`
      returned; later managers are not asked. Fails only when every manager
      refuses, with an error naming `source`. */
  function IsCompatible(reg: Registry, order: seq<ContextKey>, ctx: Context, source: string): (r: Probe)
    requires Listed(reg, order)
    ensures r.invoked <= order
    ensures r.result.Ok? <==> exists i :: 0 <= i < |order| && reg[order[i]].isCompatible(ctx, source).Ok?
    ensures r.result.Ok? ==>
              && 0 < |r.invoked|
              && r.result == reg[order[|r.invoked| - 1]].isCompatible(ctx, source)
              && forall i :: 0 <= i < |r.invoked| - 1 ==> reg[order[i]].isCompatible(ctx, source).Err?
    ensures r.result.Err? ==> r.invoked == order && r.result.msg == NoCompatibleManager(source)
    decreases |order|
  {
    if order == [] then Probe(Err(NoCompatibleManager(source)), [])
    else
      var head := reg[order[0]].isCompatible(ctx, source);
      if head.Ok? then Probe(head, [order[0]])
      else
        var rest := IsCompatible(reg, order[1..], ctx, source);
        var r := Probe(rest.result, [order[0]] + rest.invoked);
        assert forall i :: 1 <= i < |order| ==> order[i] == order[1..][i - 1];
        assert r.invoked <= order by {
          assert order == [order[0]] + order[1..];
        }
        assert r.result.Ok? ==> r.result == reg[order[|r.invoked| - 1]].isCompatible(ctx, source) by {
          if r.result.Ok? {
            assert order[|r.invoked| - 1] == order[1..][|rest.invoked| - 1];
          }
        }
        r
  }
}

=== FILE: umbrella_examples.dfy ===
/** Worked examples of the umbrella over two concrete managers, `oci` and
    `tar`, visited in either order. */
module UmbrellaExamples {
  import opened Results
  import opened PackManager
  import opened Umbrella

  const PkgA: Package := Package("pkgA")
  const PkgB: Package := Package("pkgB")
  const UpdateError: string := "E"

  /** A manager of the given format that refuses every operation. */
  function Refusing(format: string): PackageManager {
    PackageManager(
      format,
      ctx => Fail("refused"),
      (ctx, c, o) => Err("refused"),
      (ctx, p, o) => Err("refused"),
      (ctx, q) => Err("refused"),
      (ctx, s) => Fail("refused"),
      (ctx, s) => Fail("refused"),
      (ctx, s) => Err("refused"),
      s => Err("refused")
    )
  }

  /** A manager that packs everything into `pkgA`, updates without error and
      accepts every source, handing it to a manager of its own format. */
  function Oci(): PackageManager {
    PackageManager(
      "oci",
      ctx => Pass,
      (ctx, c, o) => Ok([PkgA]),
      (ctx, p, o) => Ok([]),
      (ctx, q) => Ok([PkgA]),
      (ctx, s) => Pass,
      (ctx, s) => Pass,
      (ctx, s) => Ok(Refusing("oci")),
      s => Err("oci has no sub-managers")
    )
  }

  /** A manager that packs everything into `pkgB`, fails to update with
      `UpdateError` and accepts every source, handing it to a manager of its
      own format. */
  function Tar(): PackageManager {
    PackageManager(
      "tar",
      ctx => Fail(UpdateError),
      (ctx, c, o) => Ok([PkgB]),
      (ctx, p, o) => Ok([]),
      (ctx, q) => Ok([PkgB]),
      (ctx, s) => Pass,
      (ctx, s) => Pass,
      (ctx, s) => Ok(Refusing("tar")),
      s => Err("tar has no sub-managers")
    )
  }

  function Both(): Registry {
    map["a" := Oci(), "b" := Tar()]
  }

  lemma BothEnumerations()
    ensures IsEnumeration(Both(), ["a", "b"]) && IsEnumeration(Both(), ["b", "a"])
  {
  }

  /** Packing with both managers yields both packages, in visiting order. */
  lemma PackBoth(ctx: Context, c: Component)
    ensures IsEnumeration(Both(), ["a", "b"]) && IsEnumeration(Both(), ["b", "a"])
    ensures Pack(Both(), ["a", "b"], ctx, c, []).result == Ok([PkgA, PkgB])
    ensures Pack(Both(), ["b", "a"], ctx, c, []).result == Ok([PkgB, PkgA])
  {
    BothEnumerations();
    assert Parts(Both(), ["a", "b"], PackCall(ctx, c, [])) == [[PkgA], [PkgB]];
    assert Flatten([[PkgA], [PkgB]]) == [PkgA] + Flatten([[PkgB]]) == [PkgA, PkgB];
    assert Parts(Both(), ["b", "a"], PackCall(ctx, c, [])) == [[PkgB], [PkgA]];
    assert Flatten([[PkgB], [PkgA]]) == [PkgB] + Flatten([[PkgA]]) == [PkgB, PkgA];
  }

  /** `oci` updates once before `tar` fails; visited the other way round,
      `tar` fails first and `oci` is never invoked. Either way the error is
      `tar`'s, unchanged. */
  lemma UpdateStopsAtFailure(ctx: Context)
    ensures IsEnumeration(Both(), ["a", "b"]) && IsEnumeration(Both(), ["b", "a"])
    ensures Update(Both(), ["a", "b"], ctx) == FanOut(Fail(UpdateError), ["a", "b"])
    ensures Update(Both(), ["b", "a"], ctx) == FanOut(Fail(UpdateError), ["b"])
  {
    BothEnumerations();
  }

  /** Both managers accept every source, so the first one visited wins. */
  lemma IsCompatibleFirstMatch(ctx: Context, source: string)
    ensures IsCompatible(Both(), ["a", "b"], ctx, source) == Probe(Ok(Refusing("oci")), ["a"])
    ensures IsCompatible(Both(), ["b", "a"], ctx, source) == Probe(Ok(Refusing("tar")), ["b"])
  {
  }

  /** Lookup by format finds `tar` and refuses an unknown format. */
  lemma FromByFormat()
    ensures From(Both(), ["a", "b"], "tar") == Ok(Tar())
    ensures From(Both(), ["a", "b"], "zzz") == Err(UnknownPackageManager("zzz"))
  {
  }
}

=== FILE: umbrella_manager.dfy ===
/** The umbrella as a package manager in its own right.

    `PackageManager` in the Go code is an interface the umbrella itself
    implements, so the umbrella can be handed wherever a single manager is
    expected. Here that is a `PackageManager` record built from a registry
    and one enumeration of it, and its contract says what each operation
    does in terms of the registered managers alone.
 */
module UmbrellaManager {
  import opened Results
  import opened PackManager
  import opened Umbrella
  import opened UmbrellaOrder


  // ---------------------------------------------------------------------
  // What an operation returns, in terms of the registered managers alone

  /** `err` is what an error-only fan-out of `call` over `reg` may return:
      success iff every registered manager succeeds, and otherwise the
      error of some registered manager, unchanged. */
  ghost predicate ErrorFromRegistry(reg: Registry, call: PackageManager -> Outcome, err: Outcome) {
    && (err.Pass? <==> forall k :: k in reg ==> call(reg[k]).Pass?)
    && (err.Fail? ==> exists k :: k in reg && call(reg[k]) == err)
  }

  /** `result` is what a list fan-out of `call` over `reg` may return:
      success iff every registered manager succeeds, and then an element is
      in the result iff some registered manager returned it; otherwise the
      error of some registered manager, unchanged. */
  ghost predicate ListFromRegistry<T(!new)>(reg: Registry, call: PackageManager -> Result<seq<T>>, result: Result<seq<T>>) {
    && (result.Ok? <==> forall k :: k in reg ==> call(reg[k]).Ok?)
    && (result.Ok? ==>
          forall x :: x in result.value <==> exists k :: k in reg && call(reg[k]).Ok? && x in call(reg[k]).value)
    && (result.Err? ==> exists k :: k in reg && call(reg[k]) == result)
  }

  /** `result` is what the compatibility probe for `source` may return:
      success iff some registered manager accepts the source, and then what
      one such manager produced; otherwise the error naming the source. */
  ghost predicate CompatibleFromRegistry(reg: Registry, ctx: Context, source: string, result: Result<PackageManager>) {
    && (result.Ok? <==> exists k :: k in reg && reg[k].isCompatible(ctx, source).Ok?)
    && (result.Ok? ==> exists k :: k in reg && reg[k].isCompatible(ctx, source) == result)
    && (result.Err? ==> result.msg == NoCompatibleManager(source))
  }

  /** `result` is what a lookup of format `sub` may return: success iff some
      registered manager has that format, and then one such manager;
      otherwise the error naming the format. */
  ghost predicate FoundByFormat(reg: Registry, sub: string, result: Result<PackageManager>) {
    && (result.Ok? <==> exists k :: k in reg && reg[k].format == sub)
    && (result.Ok? ==> result.value.format == sub && exists k :: k in reg && reg[k] == result.value)
    && (result.Err? ==> result.msg == UnknownPackageManager(sub))
  }

  // ---------------------------------------------------------------------
  // The fan-outs satisfy them, for every enumeration

  /** An error-only fan-out succeeds iff every registered manager does, and
      its error is otherwise that of a registered manager, unchanged. */
  lemma FailFastErrorIsRegistered(reg: Registry, order: seq<ContextKey>, call: PackageManager -> Outcome)
    requires IsEnumeration(reg, order)
    ensures ErrorFromRegistry(reg, call, FailFast(reg, order, call).err)
  {
  }

  /** On success, an element is in a list fan-out's result iff some
      registered manager returned it. */
  lemma GatherMember<T>(reg: Registry, order: seq<ContextKey>, call: PackageManager -> Result<seq<T>>, x: T)
    requires IsEnumeration(reg, order)
    ensures Gather(reg, order, call).result.Ok? ==>
              (x in Gather(reg, order, call).result.value <==>
               exists k :: k in reg && call(reg[k]).Ok? && x in call(reg[k]).value)
  {
    var r := Gather(reg, order, call);
    if r.result.Err? {
      return;
    }
    var parts := Parts(reg, order, call);
    FlattenMember(parts, x);
    if x in r.result.value {
      var i :| 0 <= i < |parts| && x in parts[i];
      var k := order[i];
      assert k in reg && call(reg[k]).Ok? && x in call(reg[k]).value;
    }
    if exists k :: k in reg && call(reg[k]).Ok? && x in call(reg[k]).value {
      var k :| k in reg && call(reg[k]).Ok? && x in call(reg[k]).value;
      EnumerationCoversRegistry(reg, order, k);
      var i :| 0 <= i < |order| && order[i] == k;
      assert x in parts[i];
    }
  }

  /** A list-returning fan-out succeeds iff every registered manager does;
      it then returns exactly the elements the managers returned, and
      otherwise the error of a registered manager, unchanged. */
  lemma GatherFromRegistry<T(!new)>(reg: Registry, order: seq<ContextKey>, call: PackageManager -> Result<seq<T>>)
    requires IsEnumeration(reg, order)
    ensures ListFromRegistry(reg, call, Gather(reg, order, call).result)
  {
    forall k | k in reg
      ensures exists i :: 0 <= i < |order| && order[i] == k
    {
      EnumerationCoversRegistry(reg, order, k);
    }
    var r := Gather(reg, order, call);
    if r.result.Err? {
      var k := order[|r.invoked| - 1];
      assert k in reg && call(reg[k]) == r.result;
    } else {
      forall x
        ensures x in r.result.value <==> exists k :: k in reg && call(reg[k]).Ok? && x in call(reg[k]).value
      {
        GatherMember(reg, order, call, x);
      }
    }
  }

  /** `IsCompatible` succeeds iff some registered manager accepts the
      source, and then returns what one of them produced. */
  lemma IsCompatibleFromRegistry(reg: Registry, order: seq<ContextKey>, ctx: Context, source: string)
    requires IsEnumeration(reg, order)
    ensures CompatibleFromRegistry(reg, ctx, source, IsCompatible(reg, order, ctx, source).result)
  {
  }

  /** `From(sub)` succeeds iff some registered manager has format `sub`,
      and then returns one of them. */
  lemma FromFindsByFormat(reg: Registry, order: seq<ContextKey>, sub: string)
    requires IsEnumeration(reg, order)
    ensures FoundByFormat(reg, sub, From(reg, order, sub))
  {
  }

  // ---------------------------------------------------------------------
  // The umbrella's operations as the fields of a `PackageManager`

  function UpdateField(reg: Registry, order: seq<ContextKey>): Context -> Outcome
    requires IsEnumeration(reg, order)
  {
    ctx => Update(reg, order, ctx).err
  }

  function AddSourceField(reg: Registry, order: seq<ContextKey>): (Context, string) -> Outcome
    requires IsEnumeration(reg, order)
  {
    (ctx, s) => AddSource(reg, order, ctx, s).err
  }

  function RemoveSourceField(reg: Registry, order: seq<ContextKey>): (Context, string) -> Outcome
    requires IsEnumeration(reg, order)
  {
    (ctx, s) => RemoveSource(reg, order, ctx, s).err
  }

  function PackField(reg: Registry, order: seq<ContextKey>): (Context, Component, seq<PackOption>) -> Result<seq<Package>>
    requires IsEnumeration(reg, order)
  {
    (ctx, e, o) => Pack(reg, order, ctx, e, o).result
  }

  function UnpackField(reg: Registry, order: seq<ContextKey>): (Context, Package, seq<UnpackOption>) -> Result<seq<Component>>
    requires IsEnumeration(reg, order)
  {
    (ctx, e, o) => Unpack(reg, order, ctx, e, o).result
  }

  function CatalogField(reg: Registry, order: seq<ContextKey>): (Context, CatalogQuery) -> Result<seq<Package>>
    requires IsEnumeration(reg, order)
  {
    (ctx, q) => Catalog(reg, order, ctx, q).result
  }

  function IsCompatibleField(reg: Registry, order: seq<ContextKey>): (Context, string) -> Result<PackageManager>
    requires IsEnumeration(reg, order)
  {
    (ctx, s) => IsCompatible(reg, order, ctx, s).result
  }

  function FromField(reg: Registry, order: seq<ContextKey>): string -> Result<PackageManager>
    requires IsEnumeration(reg, order)
  {
    s => From(reg, order, s)
  }

  /** Each field, for every argument, in terms of the registered managers. */
  lemma FieldsFromRegistry(reg: Registry, order: seq<ContextKey>)
    requires IsEnumeration(reg, order)
    ensures forall ctx :: ErrorFromRegistry(reg, UpdateCall(ctx), UpdateField(reg, order)(ctx))
    ensures forall ctx, s :: ErrorFromRegistry(reg, AddSourceCall(ctx, s), AddSourceField(reg, order)(ctx, s))
    ensures forall ctx, s :: ErrorFromRegistry(reg, RemoveSourceCall(ctx, s), RemoveSourceField(reg, order)(ctx, s))
    ensures forall ctx, e, o :: ListFromRegistry(reg, PackCall(ctx, e, o), PackField(reg, order)(ctx, e, o))
    ensures forall ctx, e, o :: ListFromRegistry(reg, UnpackCall(ctx, e, o), UnpackField(reg, order)(ctx, e, o))
    ensures forall ctx, q :: ListFromRegistry(reg, CatalogCall(ctx, q), CatalogField(reg, order)(ctx, q))
    ensures forall ctx, s :: CompatibleFromRegistry(reg, ctx, s, IsCompatibleField(reg, order)(ctx, s))
    ensures forall s :: FoundByFormat(reg, s, FromField(reg, order)(s))
  {
    forall ctx
      ensures ErrorFromRegistry(reg, UpdateCall(ctx), UpdateField(reg, order)(ctx))
    {
      FailFastErrorIsRegistered(reg, order, UpdateCall(ctx));
    }
    forall ctx, s
      ensures ErrorFromRegistry(reg, AddSourceCall(ctx, s), AddSourceField(reg, order)(ctx, s))
      ensures ErrorFromRegistry(reg, RemoveSourceCall(ctx, s), RemoveSourceField(reg, order)(ctx, s))
    {
      FailFastErrorIsRegistered(reg, order, AddSourceCall(ctx, s));
      FailFastErrorIsRegistered(reg, order, RemoveSourceCall(ctx, s));
    }
    forall ctx, e, o
      ensures ListFromRegistry(reg, PackCall(ctx, e, o), PackField(reg, order)(ctx, e, o))
    {
      GatherFromRegistry(reg, order, PackCall(ctx, e, o));
    }
    forall ctx, e, o
      ensures ListFromRegistry(reg, UnpackCall(ctx, e, o), UnpackField(reg, order)(ctx, e, o))
    {
      GatherFromRegistry(reg, order, UnpackCall(ctx, e, o));
    }
    forall ctx, q
      ensures ListFromRegistry(reg, CatalogCall(ctx, q), CatalogField(reg, order)(ctx, q))
    {
      GatherFromRegistry(reg, order, CatalogCall(ctx, q));
    }
    forall ctx, s
      ensures CompatibleFromRegistry(reg, ctx, s, IsCompatibleField(reg, order)(ctx, s))
    {
      IsCompatibleFromRegistry(reg, order, ctx, s);
    }
    forall s
      ensures FoundByFormat(reg, s, FromField(reg, order)(s))
    {
      FromFindsByFormat(reg, order, s);
    }
  }

  /** The umbrella seen as a package manager: its format is the umbrella
      key, and each operation, for every argument, returns what the
      registered managers alone determine, whatever the enumeration. */
  function AsPackageManager(reg: Registry, order: seq<ContextKey>): (m: PackageManager)
    requires IsEnumeration(reg, order)
    ensures m.format == UmbrellaContext
    ensures forall ctx :: ErrorFromRegistry(reg, UpdateCall(ctx), m.update(ctx))
    ensures forall ctx, s :: ErrorFromRegistry(reg, AddSourceCall(ctx, s), m.addSource(ctx, s))
    ensures forall ctx, s :: ErrorFromRegistry(reg, RemoveSourceCall(ctx, s), m.removeSource(ctx, s))
    ensures forall ctx, e, o :: ListFromRegistry(reg, PackCall(ctx, e, o), m.pack(ctx, e, o))
    ensures forall ctx, e, o :: ListFromRegistry(reg, UnpackCall(ctx, e, o), m.unpack(ctx, e, o))
    ensures forall ctx, q :: ListFromRegistry(reg, CatalogCall(ctx, q), m.catalog(ctx, q))
    ensures forall ctx, s :: CompatibleFromRegistry(reg, ctx, s, m.isCompatible(ctx, s))
    ensures forall s :: FoundByFormat(reg, s, m.from(s))
  {
    FieldsFromRegistry(reg, order);
    PackageManager(
      Format(),
      UpdateField(reg, order),
      PackField(reg, order),
      UnpackField(reg, order),
      CatalogField(reg, order),
      AddSourceField(reg, order),
      RemoveSourceField(reg, order),
      IsCompatibleField(reg, order),
      FromField(reg, order)
    )
  }
}

=== FILE: umbrella_order.dfy ===
/** What the umbrella's results do and do not depend on the order Go happens
    to range over the registry in.

    Whether an umbrella operation succeeds is the same for every enumeration
    of the registry. On success, `Pack`, `Unpack` and `Catalog` return the
    same elements in every order, only arranged differently. Which error is
    reported, and which manager `IsCompatible` and `From` return, may depend
    on the order.
 */
module UmbrellaOrder {
  import opened Results
  import opened PackManager
  import opened Umbrella

  /** An enumeration lists exactly the registered keys: a key is registered
      iff it occurs at some position of the enumeration. */
  lemma EnumerationCoversRegistry(reg: Registry, order: seq<ContextKey>, k: ContextKey)
    requires IsEnumeration(reg, order)
    ensures k in reg <==> exists i :: 0 <= i < |order| && order[i] == k
  {
  }

  // ---------------------------------------------------------------------
  // Error-only fan-outs

  /** An error-only fan-out succeeds iff every registered manager succeeds. */
  lemma FailFastSucceedsIffAll(reg: Registry, order: seq<ContextKey>, call: PackageManager -> Outcome)
    requires IsEnumeration(reg, order)
    ensures FailFast(reg, order, call).err.Pass? <==> forall k :: k in reg ==> call(reg[k]).Pass?
  {
  }

  /** Whether `Update` succeeds does not depend on the enumeration. */
  lemma UpdateOrderFree(reg: Registry, o1: seq<ContextKey>, o2: seq<ContextKey>, ctx: Context)
    requires IsEnumeration(reg, o1) && IsEnumeration(reg, o2)
    ensures Update(reg, o1, ctx).err.Pass? <==> forall k :: k in reg ==> reg[k].update(ctx).Pass?
    ensures Update(reg, o1, ctx).err.Pass? <==> Update(reg, o2, ctx).err.Pass?
  {
  }

  /** Whether `AddSource` succeeds does not depend on the enumeration. */
  lemma AddSourceOrderFree(reg: Registry, o1: seq<ContextKey>, o2: seq<ContextKey>, ctx: Context, source: string)
    requires IsEnumeration(reg, o1) && IsEnumeration(reg, o2)
    ensures AddSource(reg, o1, ctx, source).err.Pass? <==> forall k :: k in reg ==> reg[k].addSource(ctx, source).Pass?
    ensures AddSource(reg, o1, ctx, source).err.Pass? <==> AddSource(reg, o2, ctx, source).err.Pass?
  {
  }

  /** Whether `RemoveSource` succeeds does not depend on the enumeration. */
  lemma RemoveSourceOrderFree(reg: Registry, o1: seq<ContextKey>, o2: seq<ContextKey>, ctx: Context, source: string)
    requires IsEnumeration(reg, o1) && IsEnumeration(reg, o2)
    ensures RemoveSource(reg, o1, ctx, source).err.Pass? <==> forall k :: k in reg ==> reg[k].removeSource(ctx, source).Pass?
    ensures RemoveSource(reg, o1, ctx, source).err.Pass? <==> RemoveSource(reg, o2, ctx, source).err.Pass?
  {
  }

  // ---------------------------------------------------------------------
  // List-returning fan-outs

  lemma PartsAppend<T>(reg: Registry, a: seq<ContextKey>, b: seq<ContextKey>, call: PackageManager -> Result<seq<T>>)
    requires Listed(reg, a) && Listed(reg, b)
    ensures Listed(reg, a + b)
    ensures Parts(reg, a + b, call) == Parts(reg, a, call) + Parts(reg, b, call)
  {
  }

  /** Taking the manager at position `j` out of a listing removes exactly
      its results from the concatenation. */
  lemma SplitOut<T>(reg: Registry, order: seq<ContextKey>, j: nat, call: PackageManager -> Result<seq<T>>)
    requires Listed(reg, order) && j < |order|
    ensures Listed(reg, order[..j] + order[j + 1..])
    ensures multiset(Flatten(Parts(reg, order, call)))
         == multiset(Flatten(Parts(reg, [order[j]], call))) + multiset(Flatten(Parts(reg, order[..j] + order[j + 1..], call)))
  {
    var front, back := order[..j], order[j + 1..];
    assert order == front + ([order[j]] + back);
    assert Listed(reg, front) && Listed(reg, back) && Listed(reg, [order[j]]);
    PartsAppend(reg, [order[j]], back, call);
    PartsAppend(reg, front, [order[j]] + back, call);
    PartsAppend(reg, front, back, call);
    FlattenAppend(Parts(reg, front, call), Parts(reg, [order[j]] + back, call));
    FlattenAppend(Parts(reg, [order[j]], call), Parts(reg, back, call));
    FlattenAppend(Parts(reg, front, call), Parts(reg, back, call));
  }

  /** Removing one key from a duplicate-free listing leaves a duplicate-free
      listing of the other keys. */
  lemma RemoveAt(order: seq<ContextKey>, j: nat)
    requires NoDuplicates(order) && j < |order|
    ensures NoDuplicates(order[..j] + order[j + 1..])
    ensures forall x :: x in order[..j] + order[j + 1..] <==> x in order && x != order[j]
  {
  }

  /** A non-empty listing contains its first key. */
  lemma HeadIsListed(order: seq<ContextKey>)
    requires order != []
    ensures order[0] in order
  {
  }

  /** Two duplicate-free listings of the same keys yield the same elements
      once every manager's results are concatenated, only in another order. */
  lemma {:induction false} PermutedPartsSameElements<T>(reg: Registry, o1: seq<ContextKey>, o2: seq<ContextKey>, call: PackageManager -> Result<seq<T>>)
    requires Listed(reg, o1) && Listed(reg, o2)
    requires NoDuplicates(o1) && NoDuplicates(o2)
    requires forall k :: k in o1 <==> k in o2
    ensures multiset(Flatten(Parts(reg, o1, call))) == multiset(Flatten(Parts(reg, o2, call)))
    decreases |o1|
  {
    if o1 == [] {
      assert o2 == [] by {
        if o2 != [] {
          HeadIsListed(o2);
          assert false;
        }
      }
    } else {
      var k := o1[0];
      assert k in o2;
      var j :| 0 <= j < |o2| && o2[j] == k;
      SplitOut(reg, o2, j, call);
      SplitOut(reg, o1, 0, call);
      RemoveAt(o1, 0);
      RemoveAt(o2, j);
      assert o1[..0] + o1[1..] == o1[1..];
      var rest2 := o2[..j] + o2[j + 1..];
      forall x
        ensures x in o1[1..] <==> x in rest2
      {
        assert x in o1[1..] <==> x in o1 && x != k;
        assert x in rest2 <==> x in o2 && x != k;
      }
      PermutedPartsSameElements(reg, o1[1..], o2[..j] + o2[j + 1..], call);
    }
  }

  /** A list-returning fan-out succeeds iff every registered manager succeeds,
      and then returns the same elements, with the same multiplicities, for
      every enumeration. */
  lemma GatherOrderFree<T>(reg: Registry, o1: seq<ContextKey>, o2: seq<ContextKey>, call: PackageManager -> Result<seq<T>>)
    requires IsEnumeration(reg, o1) && IsEnumeration(reg, o2)
    ensures Gather(reg, o1, call).result.Ok? <==> forall k :: k in reg ==> call(reg[k]).Ok?
    ensures Gather(reg, o1, call).result.Ok? <==> Gather(reg, o2, call).result.Ok?
    ensures Gather(reg, o1, call).result.Ok? ==>
              multiset(Gather(reg, o1, call).result.value) == multiset(Gather(reg, o2, call).result.value)
  {
    forall k | k in reg
      ensures (exists i :: 0 <= i < |o1| && o1[i] == k) && (exists i :: 0 <= i < |o2| && o2[i] == k)
    {
      EnumerationCoversRegistry(reg, o1, k);
      EnumerationCoversRegistry(reg, o2, k);
    }
    PermutedPartsSameElements(reg, o1, o2, call);
  }

  /** `Pack` succeeds for one enumeration iff for every other, then with the
      same packages, and as many as all managers produce together. */
  lemma PackOrderFree(reg: Registry, o1: seq<ContextKey>, o2: seq<ContextKey>, ctx: Context, entity: Component, opts: seq<PackOption>)
    requires IsEnumeration(reg, o1) && IsEnumeration(reg, o2)
    ensures Pack(reg, o1, ctx, entity, opts).result.Ok? <==> forall k :: k in reg ==> reg[k].pack(ctx, entity, opts).Ok?
    ensures Pack(reg, o1, ctx, entity, opts).result.Ok? <==> Pack(reg, o2, ctx, entity, opts).result.Ok?
    ensures Pack(reg, o1, ctx, entity, opts).result.Ok? ==>
              multiset(Pack(reg, o1, ctx, entity, opts).result.value) == multiset(Pack(reg, o2, ctx, entity, opts).result.value)
  {
    GatherOrderFree(reg, o1, o2, PackCall(ctx, entity, opts));
  }

  /** `Unpack` succeeds for one enumeration iff for every other, then with
      the same components. */
  lemma UnpackOrderFree(reg: Registry, o1: seq<ContextKey>, o2: seq<ContextKey>, ctx: Context, entity: Package, opts: seq<UnpackOption>)
    requires IsEnumeration(reg, o1) && IsEnumeration(reg, o2)
    ensures Unpack(reg, o1, ctx, entity, opts).result.Ok? <==> forall k :: k in reg ==> reg[k].unpack(ctx, entity, opts).Ok?
    ensures Unpack(reg, o1, ctx, entity, opts).result.Ok? <==> Unpack(reg, o2, ctx, entity, opts).result.Ok?
    ensures Unpack(reg, o1, ctx, entity, opts).result.Ok? ==>
              multiset(Unpack(reg, o1, ctx, entity, opts).result.value) == multiset(Unpack(reg, o2, ctx, entity, opts).result.value)
  {
    GatherOrderFree(reg, o1, o2, UnpackCall(ctx, entity, opts));
  }

  /** `Catalog` succeeds for one enumeration iff for every other, then with
      the same packages. */
  lemma CatalogOrderFree(reg: Registry, o1: seq<ContextKey>, o2: seq<ContextKey>, ctx: Context, query: CatalogQuery)
    requires IsEnumeration(reg, o1) && IsEnumeration(reg, o2)
    ensures Catalog(reg, o1, ctx, query).result.Ok? <==> forall k :: k in reg ==> reg[k].catalog(ctx, query).Ok?
    ensures Catalog(reg, o1, ctx, query).result.Ok? <==> Catalog(reg, o2, ctx, query).result.Ok?
    ensures Catalog(reg, o1, ctx, query).result.Ok? ==>
              multiset(Catalog(reg, o1, ctx, query).result.value) == multiset(Catalog(reg, o2, ctx, query).result.value)
  {
    GatherOrderFree(reg, o1, o2, CatalogCall(ctx, query));
  }

  // ---------------------------------------------------------------------
  // Lookups

  /** `IsCompatible` succeeds iff some registered manager accepts the source,
      whatever the enumeration. */
  lemma IsCompatibleOrderFree(reg: Registry, o1: seq<ContextKey>, o2: seq<ContextKey>, ctx: Context, source: string)
    requires IsEnumeration(reg, o1) && IsEnumeration(reg, o2)
    ensures IsCompatible(reg, o1, ctx, source).result.Ok? <==> exists k :: k in reg && reg[k].isCompatible(ctx, source).Ok?
    ensures IsCompatible(reg, o1, ctx, source).result.Ok? <==> IsCompatible(reg, o2, ctx, source).result.Ok?
  {
  }

  /** With nothing registered, `IsCompatible` always fails. */
  lemma IsCompatibleEmptyRegistry(reg: Registry, order: seq<ContextKey>, ctx: Context, source: string)
    requires reg == map[] && IsEnumeration(reg, order)
    ensures IsCompatible(reg, order, ctx, source).result == Err(NoCompatibleManager(source))
  {
  }

  /** `From(sub)` succeeds iff some registered manager has format `sub`,
      whatever the enumeration, and then returns a manager of that format. */
  lemma FromOrderFree(reg: Registry, o1: seq<ContextKey>, o2: seq<ContextKey>, sub: string)
    requires IsEnumeration(reg, o1) && IsEnumeration(reg, o2)
    ensures From(reg, o1, sub).Ok? <==> exists k :: k in reg && reg[k].format == sub
    ensures From(reg, o1, sub).Ok? <==> From(reg, o2, sub).Ok?
    ensures From(reg, o1, sub).Ok? ==> From(reg, o1, sub).value.format == From(reg, o2, sub).value.format == sub
  {
  }
}
